=== FILE: README.md ===
# AR capture session: handler logic and analytics aggregation

This project models the decision logic of a web AR camera app's capture session. The app
records the rendered AR canvas plus microphone audio, processes the clip, and shares or
downloads it. The project also models the analytics the app records and the dashboard
that summarizes them.

Each handler is a pure function. It reads a snapshot of the camera and recording contexts
and takes the outcome of every awaited collaborator as a parameter: returned a value, or
threw. It returns the ordered list of abstract effects the source would perform. Those
effects are collaborator calls, debug-log lines, analytics events, file saves and deferred
(`setTimeout`) effects. The analytics side is modelled as pure functions over sequences,
maps and exact `int`/`real` values.

Modules:

- `Outcomes`: `Option`, the settled `Outcome` of an awaited call, thrown values, and the
  JavaScript truthiness rules the source relies on. The empty string is falsy, and so are
  `0` and `undefined`.
- `Text`: `includes`-style substring search and the mp4/webm naming rule.
- `LocalStorage`: `localStorage` as a map, plus the get-or-create analytics session id.
- `Capture`: camera and recording states, capture inputs, the `Effect` and `Note` (log
  line) vocabulary.
- `Orchestrator`: the capture screen (`src/App.tsx`).
- `Recorder`: the recording context (`src/context/RecordingContext.tsx`).
- `Preview`: the preview screen (`src/components/video/VideoPreview.tsx`).
- `EventStore`: the database analytics helpers (`src/utils/supabase.ts`).
- `VercelApi`: the hosted-analytics client (`src/utils/vercelAnalytics.ts`).
- `Dashboard`: the analytics page (`src/pages/TrackingPage.tsx`).

Places where the code is more permissive than its comments and controls suggest:

- The camera-switch and manual-reload handlers check only `isReady`. They do not refuse
  while a recording is in progress. `Orchestrator.SwitchIgnoresRecordingState` states
  this.
- The record button's handler does not check camera readiness. The only guard is the
  controls' `disabled={!isReady}` property.
- The lens restart waits 500 ms only when the reload reports success.
- The dashboard's fetch error branch is kept as written. The database query it calls
  (`EventStore.GetAnalyticsData`) never throws, so that branch is unreachable in the
  shipped code.
- The preview screen ignores the `onDownload` callback the capture screen passes in.
  Its own download handler is the one that runs.

## Model

| member | source | states |
|---|---|---|
| Orchestrator.InitializeApp | src/App.tsx:105-135 | A ready camera gets only a log line. Otherwise a stream is requested only with permission, and the engine is initialized only with a stream. A failure line is logged iff the permission check, the stream request or the engine start threw; nothing else is attempted after it. |
| Orchestrator.OnFocus | src/App.tsx:82-87 | A restore is scheduled (200 ms) exactly when the camera is ready. Otherwise nothing happens. |
| Orchestrator.OnVisibilityChange | src/App.tsx:89-94 | A restore is scheduled (100 ms) exactly when the page is visible and the camera is ready. |
| Orchestrator.HandleSwitchCamera | src/App.tsx:137-150 | The switch is requested iff `isReady`. Otherwise there are no effects. Failures are only logged. |
| Orchestrator.SwitchIgnoresRecordingState | src/App.tsx:137-138 | The switch handler's result does not depend on the recording state or time, so a switch while recording goes ahead. |
| Orchestrator.HandleReloadEffect | src/App.tsx:215-233 | The lens is reloaded iff `isReady`. Otherwise the only effect is the "cannot reload" line. |
| Orchestrator.LensRestart | src/App.tsx:170-185 | The reload is always requested. It waits 500 ms iff the reload returned true. It never forwards the press. |
| Orchestrator.AudioTrackReport | src/App.tsx:197-203 | Only log lines. A "not ready" warning appears for track i iff that track is not live or not enabled. |
| Orchestrator.PreRecordingReport | src/App.tsx:187-204 | Only log lines. There is a silent-recording warning iff the stream has no audio track, otherwise per-track warnings exactly for unusable tracks. |
| Orchestrator.IdlePress | src/App.tsx:169-211 | The lens is reloaded, and the press is forwarded iff a stream exists, whatever the lens answered. |
| Orchestrator.HandleToggleRecording | src/App.tsx:153-213 | No canvas gives one log line in every state. While recording, the press is forwarded iff time >= 3, otherwise only the "too short" line. While idle, see `IdlePress`. While processing, nothing. |
| Orchestrator.LensFailureNeverBlocksStart | src/App.tsx:169-211 | Any two lens outcomes lead to the same forwarded start request. |
| Orchestrator.PressRecordStartsAndStops | src/App.tsx:162-211 | Through both layers, the recorder is stopped iff there is a canvas, it is recording and time >= 3. It is started iff there is a canvas and a stream and it is idle. |
| Orchestrator.HandleClosePreview | src/App.tsx:235-239 | The preview is hidden, and the restore is deferred by 100 ms, not immediate. |
| Orchestrator.HandleProcessAndShare | src/App.tsx:241-244 | Starts the processing job after a log line. |
| Orchestrator.HandleDownload | src/App.tsx:246-252 | Calls the context's download first, then hides the preview and restores the camera 500 ms later. |
| Orchestrator.HandleModalCancel | src/App.tsx:337-341 | Hides the modal and schedules a restore 100 ms later. It neither clears nor stops anything. |
| Orchestrator.HandleRequestPermission | src/App.tsx:262-275 | Start-up is re-run iff a stream was granted, and that stream's tracks are stopped first. |
| Orchestrator.HandleRetry | src/App.tsx:277-280 | Re-runs start-up. |
| Orchestrator.ModalFlagsExclusive | src/App.tsx:335-336 | The modal is complete iff progress is 100 and there is no truthy error. It is never complete and failed at once. An empty message counts as no error. |
| Recorder.AudioReport | src/context/RecordingContext.tsx:138-146 | Only log lines: one per audio track plus a count, or a single "no audio stream" line. |
| Recorder.Toggle | src/context/RecordingContext.tsx:115-160 | Stops iff recording with time >= 3 (inclusive), tracking the completed recording. Below 3, only the "too short" line. While idle with a canvas, it starts with exactly that canvas and audio, even at low resolution. Without a canvas, only a log line. While processing, nothing. |
| Recorder.LowResolutionDoesNotBlock | src/context/RecordingContext.tsx:133-155 | A canvas below 640x480 is warned about and recording is still started. |
| Recorder.Route | src/context/RecordingContext.tsx:92-100 | With a video in idle, it auto-shares iff auto-share is on, else shows the preview. Without a video or when not idle, nothing. |
| Recorder.Clear | src/context/RecordingContext.tsx:103-112 | Clears first, then defers a restore iff a restore callback exists. |
| Recorder.DurationOr | src/context/RecordingContext.tsx:179-181 | The recorded duration, else the elapsed time, else the fallback. The result is non-zero for a non-zero fallback. |
| Recorder.Download | src/context/RecordingContext.tsx:226-252 | No video gives no effects. Otherwise it saves exactly the recorded file under the mp4 rule's extension (every save carries that extension), and defers a restore iff a callback exists. |
| Recorder.BeginJob | src/context/RecordingContext.tsx:175-177 | A new job is busy with progress 0 and no error. The message is kept. |
| Recorder.ApplyProgress | src/context/RecordingContext.tsx:188-192 | The last progress report wins. The busy flag and error are untouched. |
| Recorder.Fail | src/context/RecordingContext.tsx:217-223 | Records the error message (or "Processing failed") and ends the job with progress kept. The effects so far are kept, and the original recording is downloaded after them. |
| Recorder.ProcessAndShareVideo | src/context/RecordingContext.tsx:162-224 | No video: the job is unchanged and there is one log line. Otherwise the job is not busy afterwards, and progress is 0 or the last report. There is an error iff processing or sharing threw, with that exception's message or "Processing failed". Then the original file is downloaded, and nothing clears the recording or hides the preview, now or later. Otherwise the preview is hidden and the recording cleared after 1 s, with no download. |
| Recorder.ShareDeclinedIsNotAnError | src/context/RecordingContext.tsx:205-215 | A share result of false ends the job exactly like true: no error, preview hidden and recording cleared. |
| Preview.PlatformOf | src/components/video/VideoPreview.tsx:21-25 | Android iff the Android flag is set; iPhone iff only the iOS flag; otherwise Desktop. |
| Preview.HandleShare | src/components/video/VideoPreview.tsx:37-40 | Starts processing, then closes, in that order. |
| Preview.HandleDownloadAsWritten | src/components/video/VideoPreview.tsx:42-89 | With a logger, the file is saved and the close deferred on both paths. Without one, an exception escapes and nothing is saved or closed. |
| Preview.DownloadLostWithoutLogger | src/App.tsx:321-330 | Rendered without a logger, a download press records the event but saves nothing. |
| Preview.HandleDownload | src/components/video/VideoPreview.tsx:44-70 | Corrected handler: on every path the file is saved, the close is deferred and no exception escapes. When storage works, the download event carries the stored session id. |
| Preview.CorrectedAgreesWithLogger | src/components/video/VideoPreview.tsx:72-88 | With a logger, the corrected handler equals the source's handler on every input. |
| LocalStorage.GetOrCreateSession | src/utils/supabase.ts:55-62 | A stored non-empty id is returned and storage is untouched. Otherwise `session_<suffix>` is stored. Other keys never change. |
| LocalStorage.SessionIdIsStable | src/components/video/VideoPreview.tsx:28-35 | A second lookup returns the first id, whatever text it would generate. |
| EventStore.ClientIp | src/utils/supabase.ts:64-72 | The service's address, or "0.0.0.0" on any failure. |
| EventStore.SessionFor | src/utils/supabase.ts:21 | The caller's session when non-empty, with storage untouched. Otherwise the stored or created one. |
| EventStore.TrackEvent | src/utils/supabase.ts:10-31 | A storage exception during the session lookup (only reached with no caller session) is swallowed: no row, storage unchanged, address service not asked. Otherwise the row carries the event type, the caller's session when non-empty and otherwise the stored one, and the service's address or `0.0.0.0` on failure. Storage changes only through the session lookup. The result has no error case, and `stored` is the database's answer. |
| EventStore.TrackPageView | src/utils/supabase.ts:33-52 | Same as for events, on the page-view table, with the key `/` when no path is given: swallowed storage exception, session rule, storage after the lookup, address and fallback, and the `stored` flag. |
| EventStore.SessionSharedAcrossEvents | src/utils/supabase.ts:58-59 | Two events without a caller session, with working storage, carry the same session id. |
| EventStore.DaysBack | src/utils/supabase.ts:79-91 | 1 iff "1d", 30 iff "30d", and 7 for everything else. |
| EventStore.OccurrencesAppend | src/utils/supabase.ts:112 | Appending an event adds one to its own type's count and nothing to other types. |
| EventStore.CountByType | src/utils/supabase.ts:111-114 | The map built in one pass gives each type its number of occurrences, with 0 when absent. Its keys are exactly the types seen. |
| EventStore.GetAnalyticsData | src/utils/supabase.ts:75-135 | The offset is `DaysBack(range)`. If either query fails, all six counters are 0. Otherwise pageViews is the number of rows (0 for null) and each counter is its type's occurrence count. |
| EventStore.UnrelatedEventsIgnored | src/utils/supabase.ts:116-123 | An event of any other type leaves all counters unchanged. |
| VercelApi.SinceOf | src/utils/vercelAnalytics.ts:32-47 | "all" maps to 1 January 2020. Other codes map to the database day offset, 7 by default. |
| VercelApi.Scaled | src/utils/vercelAnalytics.ts:114 | floor(r*span)+base lies in [base, base+span-1] for r in [0,1). |
| VercelApi.GetMockAnalyticsData | src/utils/vercelAnalytics.ts:112-120 | Mock counters lie in [500,1499], [200,599], [100,399], [50,199] and [20,119]. |
| VercelApi.FirstMatch | src/utils/vercelAnalytics.ts:87-90 | None iff no entry has the name. Otherwise it is the first such entry, with no earlier entry of that name. |
| VercelApi.EventCount | src/utils/vercelAnalytics.ts:87-90 | The first matching entry's count (0 if missing), and 0 with no match. |
| VercelApi.Extract | src/utils/vercelAnalytics.ts:83-98 | pageViews defaults to 0. Each event counter is `EventCount` over the entries, or over none when absent. |
| VercelApi.Recover | src/utils/vercelAnalytics.ts:99-108 | Mock data in development, otherwise the same failure. |
| VercelApi.FetchAnalyticsData | src/utils/vercelAnalytics.ts:17-109 | Missing configuration rejects with no request, even in development. Events are requested only after page views succeed. Both succeeding gives the extracted counters, and each request failure goes through `Recover` with that request's own error: its HTTP status or the thrown value. |
| Dashboard.RestoreAuth | src/pages/TrackingPage.tsx:31-36 | Logged in iff already logged in or the stored flag is exactly "true". Nothing else changes. |
| Dashboard.Authenticate | src/pages/TrackingPage.tsx:71-78 | The right password logs in and stores "true". A wrong one only sets "Invalid password", with login state and storage unchanged. |
| Dashboard.Logout | src/pages/TrackingPage.tsx:80-83 | Logged out, the flag removed, and other keys unchanged. |
| Dashboard.LoginPersists | src/pages/TrackingPage.tsx:72-74 | After a successful login, a newly mounted page restores the session. |
| Dashboard.LogoutForgetsLogin | src/pages/TrackingPage.tsx:80-83 | Login then logout leaves storage as before minus the flag, and a new page is not logged in. |
| Dashboard.BeginFetch | src/pages/TrackingPage.tsx:39-41 | Fetches iff logged in, after showing the spinner and clearing the error. Otherwise the page is unchanged. |
| Dashboard.FinishFetch | src/pages/TrackingPage.tsx:43-64 | The spinner stops. Success replaces the counters and clears the error. An exception keeps the counters and shows its message or the default text. |
| Dashboard.Round | src/pages/TrackingPage.tsx:132 | The nearest integer, with halves rounded up. |
| Dashboard.ConversionRate | src/pages/TrackingPage.tsx:132-134 | 0 for a zero denominator, otherwise within 1/2 of 100*num/den. |
| Dashboard.RateWithinHundred | src/pages/TrackingPage.tsx:133 | A part no larger than its whole gives a rate in [0,100]. |
| Dashboard.FunnelPercent | src/pages/TrackingPage.tsx:254-272 | Non-negative; 100*value/pageViews for pageViews > 0 and 100*value for pageViews = 0 (never a division by zero). |
| Dashboard.BarWidth | src/pages/TrackingPage.tsx:315 | At most 100, and at most the rate. |
| Dashboard.BarHeight | src/pages/TrackingPage.tsx:334 | At least 5, and at least the percentage. |
| Dashboard.RangeLabel | src/pages/TrackingPage.tsx:279 | "Last 24 hours" iff the code is 1d, "Last 7 days" iff 7d, and "Last 30 days" for every other code. |
| Dashboard.LabelDays | src/pages/TrackingPage.tsx:279 | 1 day iff "Last 24 hours", 7 days iff "Last 7 days", 30 days iff "Last 30 days". |
| Dashboard.LabelMatchesQuery | src/pages/TrackingPage.tsx:279 | The footer's day count equals the query's offset iff the code is "1d", "7d" or "30d". |
| Text.ContainsIffOccurs | src/context/RecordingContext.tsx:238 | The scan finds "mp4" iff it occurs at some index. |
| Text.VideoFormat | src/context/RecordingContext.tsx:172 | "mp4" iff the MIME type contains "mp4", else "webm". |
| Text.VideoExtension | src/context/RecordingContext.tsx:238 | ".mp4" iff the MIME type contains "mp4", else ".webm". It always equals "." plus the format. |
| Outcomes.MessageOr | src/context/RecordingContext.tsx:219 | An Error's message, or the fallback for any other thrown value. |

## Findings

| source | as written | input that shows it | evidently intended | confidence | as-written member | corrected member |
|---|---|---|---|---|---|---|
| src/App.tsx:321-330 | The capture screen renders the preview without the `addLog` property. The preview's download handler calls `addLog` in its try block (src/components/video/VideoPreview.tsx:53) and again first thing in its catch block (line 73), so the second call throws out of the handler before any file is saved. | Record a clip, then press Download on the preview. | The file is saved and the preview closes whether or not logging or tracking fails (the catch block's own comment). | medium, not executed; this assumes `./components` re-exports this `VideoPreview` and that the app is built without a type check (a type-checked build rejects the missing required `addLog` property) | Preview.HandleDownloadAsWritten (counterexample: Preview.DownloadLostWithoutLogger) | Preview.HandleDownload |

## Left out

- Rendering, JSX, CSS, and hook/effect scheduling are left out. `setTimeout` delays are
  kept only as the `After(ms, effects)` effect, with no notion of time.
- The recording hook, the video processor (`processVideo`, `shareVideo`), the camera
  context and the AR engine are not part of this model. Their results are parameters.
  Progress monotonicity and the hook's own state transitions are not stated, because
  that code is not shown.
- MediaStream, canvas, Blob, object-URL and anchor-click mechanics are reduced to track
  flags, a canvas size, a MIME type and the `SaveFile` effect.
- Network I/O is left out: the database client, the address lookup, the hosted-analytics
  API and `track`. Only their results and the error-to-default handling are modelled.
  Event metadata sent to the database is not modelled.
- `Date` and ISO-string computation is left out. Only the day offset, or the fixed
  2020-01-01 start, is kept.
- The `Math.random`/`Date.now` text of a new session id is a `suffix` parameter.
- The in-app-browser redirect heuristics, the settings and debug-log panel, and the
  log-line text are left out. Log lines are structured `Note` values.
- `src/vite-env.d.ts` holds type declarations only.
- The async race in the record handler is left out: the state is read before the lens
  reload is awaited. The handler is modelled as one sequential step on one snapshot.
- The controls' `disabled={!isReady}` gating is not modelled. The controls component
  is not part of this model.
- EventStore.CountByType: the source tallies into a plain object, so type names that are
  built-in property names (`constructor`, `toString`, `__proto__`, ...) are not counted as
  ordinary keys there; the model counts them like any other name. The six counters the
  dashboard reads are not affected.
- Dashboard.Round: rounds the exact rational value. The source rounds a floating-point
  quotient, which can differ for halves that floats do not represent exactly.
- Dashboard.FunnelPercent: exact rational arithmetic stands in for floating point.
- Preview.HandleDownloadAsWritten: only exceptions thrown by storage access or by a
  missing logger are modelled, not exceptions from the download mechanics themselves.
- Recorder.Toggle: the `track` calls are effects. Their own failures, which would
  propagate, are not modelled.

=== FILE: capture.dfy ===
/** The vocabulary of the capture session: the states the camera and the recorder can be in,
    the collaborator values the handlers look at, and the abstract effects the handlers emit.
    A handler never performs I/O itself in this model; it returns the ordered list of calls
    and log lines the source would make. */
module Capture {
  import opened Outcomes

  /** Camera context state. */
  datatype CameraState =
    | Uninitialized | Initializing | Ready | CameraError | PermissionDenied | HttpsRequired

  /** Recording hook state. */
  datatype RecordingState = Idle | Recording | Processing

  /** The capture surface, reduced to its pixel size. */
  datatype Canvas = Canvas(width: int, height: int)

  /** A microphone track: `readyState === 'live'` and `enabled`. */
  datatype AudioTrack = AudioTrack(live: bool, enabled: bool)

  /** A camera stream, reduced to its number of video tracks and its audio tracks. */
  datatype Stream = Stream(videoTracks: nat, audioTracks: seq<AudioTrack>)

  /** A recorded or processed video file. `recordingDuration`, `android` and `ios` are the
      ad-hoc properties the recorder attaches to the blob. */
  datatype Video = Video(mime: string, recordingDuration: Option<int>, android: bool, ios: bool, size: nat)

  /** A track is usable for recording when it is live and enabled. */
  predicate Usable(t: AudioTrack) {
    t.live && t.enabled
  }

  /** `!!audioStream?.getAudioTracks().length` */
  predicate HasAudio(audio: Option<Stream>) {
    audio.Some? && |audio.value.audioTracks| > 0
  }

  /** The events sent to the hosted analytics sink (`track(name, metadata)`). */
  datatype Metric =
    | RecordingStarted(hasAudio: bool, canvasWidth: int, canvasHeight: int)
    | RecordingCompleted(duration: int, hasAudio: bool)
    | ShareAttempt(videoDuration: int, videoFormat: string)
    | ShareCompleted(success: bool, videoDuration: int, videoFormat: string)
    | VideoDownloaded(videoDuration: int, videoFormat: string)

  /** Debug-log lines, one constructor per message the source writes. */
  datatype Note =
    // application start-up
    | AlreadyReady | InitStarting | StreamSummary(video: nat, audio: nat) | SilentStream
    | InitComplete | InitFailed(error: Thrown)
    // camera switch and manual lens reload
    | Switching | Switched(audio: nat) | SwitchFailed(error: Thrown)
    | CannotReload | ManualReload | LensReloaded | LensReloadFailed | ReloadError(error: Thrown)
    // record button on the capture screen
    | CanvasUnavailable | TooShort(seconds: int)
    | RestartingLens | LensRestarted | LensRestartFailed | LensRestartError(error: Thrown)
    | PreRecordingCheck(video: nat, audio: nat) | SilentRecording
    | AudioTrackState(index: nat, live: bool, enabled: bool) | AudioTrackNotReady(index: nat)
    | NoStreamForRecording
    // screen-level handlers
    | PreviewClosed | StartingProcessing | ProcessingCancelled | Focused | Visible
    | RequestingPermission | PermissionGranted(audio: nat) | PermissionFailed(error: Thrown) | Retrying
    // recording context
    | CanvasRequired | LowResolution(width: int, height: int)
    | AudioStreamTracks(count: nat) | AudioTrackInfo(index: nat, live: bool, enabled: bool) | NoAudioStream
    | StartFailed | AutoSharing | ShowingPreview | RestoringAfterClear | NoVideo
    | ProcessingSeconds(duration: int) | ProgressNote(message: string, percent: int)
    | AttemptingShare | Shared | DownloadedWithInstructions | ProcessingFailed(error: Thrown)
    | Downloaded | RestoringAfterDownload
    // preview screen
    | DownloadTracked | DownloadInitiated | DownloadTrackingFailed(error: Thrown)

  /** The calls a handler makes, in order. `After(ms, es)` is `setTimeout(() => es, ms)`. */
  datatype Effect =
    | Log(note: Note)
    | CheckPermission | RequestStream | InitEngine | SwitchCamera | ReloadLens
    | Wait(ms: nat)
    | StopTracks | Reinitialize          // stop the probe stream's tracks; run start-up again
    | ToggleRecording(canvas: Canvas, audio: Option<Stream>)   // forwarded to the recording context
    | StartRecording(canvas: Canvas, audio: Option<Stream>)    // recording hook
    | StopRecording                                            // recording hook
    | ClearRecording                                           // recording hook
    | ShowPreview(show: bool) | ShowRenderingModal(show: bool)
    | ProcessAndShare | DownloadVideo | Close
    | SaveFile(video: Video, extension: string)                // anchor-click download of a blob
    | RestoreFeed
    | Track(metric: Metric)                                    // hosted analytics
    | StoreEvent(eventType: string, session: string)           // database analytics
    | After(ms: nat, deferred: seq<Effect>)

  /** Some effect of the list forwards the press to the recording context. */
  predicate Forwards(effects: seq<Effect>) {
    exists e :: e in effects && e.ToggleRecording?
  }

  /** The list schedules a camera-feed restore. */
  predicate SchedulesRestore(effects: seq<Effect>) {
    exists e :: e in effects && e.After? && RestoreFeed in e.deferred
  }

  /** Every effect of the list is a debug-log line. */
  predicate OnlyLogs(effects: seq<Effect>) {
    forall e :: e in effects ==> e.Log?
  }
}

=== FILE: dashboard.dfy ===
/** The password-protected analytics dashboard: restoring a saved login, logging in and out,
    loading the counters, and the arithmetic behind the conversion cards and the funnel. */
module Dashboard {
  import opened Outcomes
  import LocalStorage
  import EventStore

  /** The counters on screen plus the loading flag and the error banner. */
  datatype Data = Data(pageViews: nat, recordingStarted: nat, recordingCompleted: nat, shareAttempt: nat,
                       videoDownloaded: nat, loading: bool, error: Option<string>)

  /** The page state: data, selected range code, typed password, login flag. */
  datatype Page = Page(data: Data, range: string, password: string, authenticated: bool)

  /** The page as first rendered. */
  const Initial := Page(Data(0, 0, 0, 0, 0, true, None), "7d", "", false)

  /** Storage key of the saved login. */
  const AuthKey := "tracking_authenticated"

  /** The password compared against. */
  const DashboardPassword := "@SmileMeter2025"

  /** On mount: log in when the saved flag is exactly "true"; never logs out. */
  function RestoreAuth(p: Page, store: LocalStorage.Store): (q: Page)
    ensures q.authenticated <==> p.authenticated || LocalStorage.GetItem(store, AuthKey) == Some("true")
    ensures q == p.(authenticated := q.authenticated)
  {
    if LocalStorage.GetItem(store, AuthKey) == Some("true") then p.(authenticated := true) else p
  }

  /** Page and storage after a login or logout. */
  datatype AuthStep = AuthStep(page: Page, store: LocalStorage.Store)

  /** The login button: the right password logs in and saves the flag; any other password
      only sets the "Invalid password" banner and leaves the login state and storage alone. */
  function Authenticate(p: Page, store: LocalStorage.Store): (r: AuthStep)
    ensures p.password == DashboardPassword ==>
              r.page == p.(authenticated := true) && LocalStorage.GetItem(r.store, AuthKey) == Some("true")
    ensures p.password != DashboardPassword ==>
              r.page == p.(data := p.data.(error := Some("Invalid password"))) && r.store == store
    ensures forall k :: k != AuthKey ==> LocalStorage.GetItem(r.store, k) == LocalStorage.GetItem(store, k)
  {
    if p.password == DashboardPassword then AuthStep(p.(authenticated := true), store[AuthKey := "true"])
    else AuthStep(p.(data := p.data.(error := Some("Invalid password"))), store)
  }

  /** The logout button: logged out and the saved flag removed; nothing else changes. */
  function Logout(p: Page, store: LocalStorage.Store): (r: AuthStep)
    ensures r.page == p.(authenticated := false)
    ensures LocalStorage.GetItem(r.store, AuthKey).None?
    ensures forall k :: k != AuthKey ==> LocalStorage.GetItem(r.store, k) == LocalStorage.GetItem(store, k)
  {
    AuthStep(p.(authenticated := false), store - {AuthKey})
  }

  /** A successful login survives a reload: a freshly mounted page restores it. */
  lemma LoginPersists(p: Page, store: LocalStorage.Store, mounted: Page)
    requires p.password == DashboardPassword
    ensures RestoreAuth(mounted, Authenticate(p, store).store).authenticated
  {
  }

  /** After a logout a freshly mounted page is not logged in, and the storage is what it was
      before the login apart from the removed flag. */
  lemma LogoutForgetsLogin(p: Page, store: LocalStorage.Store)
    requires p.password == DashboardPassword
    ensures var a := Authenticate(p, store);
            var b := Logout(a.page, a.store);
            !RestoreAuth(Initial, b.store).authenticated && !b.page.authenticated
            && b.store == store - {AuthKey}
  {
  }

  /** Page after the fetch effect runs, and whether a fetch was started. */
  datatype FetchStart = FetchStart(page: Page, fetches: bool)

  /** The fetch effect: only a logged-in page fetches; it first shows the spinner and clears
      the banner. */
  function BeginFetch(p: Page): (r: FetchStart)
    ensures r.fetches <==> p.authenticated
    ensures p.authenticated ==> r.page == p.(data := p.data.(loading := true, error := None))
    ensures !p.authenticated ==> r.page == p
  {
    if p.authenticated then FetchStart(p.(data := p.data.(loading := true, error := None)), true)
    else FetchStart(p, false)
  }

  /** The fetch settles: on success the counters are replaced and the banner cleared; on an
      exception the previous counters stay and the banner shows the message. The spinner
      stops either way. */
  function FinishFetch(p: Page, result: Outcome<EventStore.Counts>): (q: Page)
    ensures !q.data.loading
    ensures q.range == p.range && q.authenticated == p.authenticated && q.password == p.password
    ensures result.Returned? ==>
              q.data.pageViews == result.value.pageViews && q.data.recordingStarted == result.value.recordingStarted
              && q.data.recordingCompleted == result.value.recordingCompleted
              && q.data.shareAttempt == result.value.shareAttempt
              && q.data.videoDownloaded == result.value.videoDownloaded
              && q.data.error.None?
    ensures result.Threw? ==>
              q.data == p.data.(loading := false, error := Some(MessageOr(result.error, "Failed to fetch analytics data")))
  {
    match result
    case Returned(c) =>
      p.(data := Data(c.pageViews, c.recordingStarted, c.recordingCompleted, c.shareAttempt, c.videoDownloaded, false, None))
    case Threw(e) =>
      p.(data := p.data.(loading := false, error := Some(MessageOr(e, "Failed to fetch analytics data"))))
  }

  /** `Math.round` on an exact value: the nearest integer, halves rounded up. */
  function Round(x: real): (n: int)
    ensures x - 0.5 < n as real <= x + 0.5
  {
    (x + 0.5).Floor
  }

  /** A conversion card: 0 when the denominator is 0, else the rounded percentage. */
  function ConversionRate(num: nat, den: nat): (rate: int)
    ensures den == 0 ==> rate == 0
    ensures den > 0 ==> 100.0 * (num as real / den as real) - 0.5 < rate as real <= 100.0 * (num as real / den as real) + 0.5
  {
    if den == 0 then 0 else Round((num as real / den as real) * 100.0)
  }

  /** A part that does not exceed its whole gives a rate between 0 and 100. */
  lemma RateWithinHundred(num: nat, den: nat)
    requires num <= den
    ensures 0 <= ConversionRate(num, den) <= 100
  {
    if den > 0 {
      var q := num as real / den as real;
      assert q * den as real == num as real;
      assert 0.0 <= q <= 1.0;
    }
  }

  /** A funnel step's share of the visitors; the divisor is at least 1, so there is never a
      division by zero. */
  function FunnelPercent(value: nat, pageViews: nat): (p: real)
    ensures p >= 0.0
    ensures pageViews > 0 ==> p * pageViews as real == 100.0 * value as real
    ensures pageViews == 0 ==> p == 100.0 * value as real
  {
    var divisor := if pageViews > 1 then pageViews else 1;
    (value as real / divisor as real) * 100.0
  }

  /** Width of a conversion bar: the rate capped at 100. */
  function BarWidth(percent: int): (w: int)
    ensures w <= 100 && w <= percent
    ensures w == percent || w == 100
  {
    if percent < 100 then percent else 100
  }

  /** Height of a funnel bar: the percentage raised to at least 5. */
  function BarHeight(percent: real): (h: real)
    ensures h >= 5.0 && h >= percent
    ensures h == percent || h == 5.0
  {
    if percent > 5.0 then percent else 5.0
  }

  /** Footer text for the selected range. */
  function RangeLabel(range: string): (text: string)
    ensures text == "Last 24 hours" <==> range == "1d"
    ensures text == "Last 7 days" <==> range == "7d"
    ensures text == "Last 30 days" <==> range != "1d" && range != "7d"
  {
    if range == "1d" then "Last 24 hours" else if range == "7d" then "Last 7 days" else "Last 30 days"
  }

  /** The number of days the footer text names. */
  function LabelDays(range: string): (days: nat)
    ensures days == 1 <==> RangeLabel(range) == "Last 24 hours"
    ensures days == 7 <==> RangeLabel(range) == "Last 7 days"
    ensures days == 30 <==> RangeLabel(range) == "Last 30 days"
  {
    if range == "1d" then 1 else if range == "7d" then 7 else 30
  }

  /** The footer agrees with the query's day offset exactly for the three selectable codes;
      for any other code it says 30 days while the query covers 7. */
  lemma LabelMatchesQuery(range: string)
    ensures LabelDays(range) == EventStore.DaysBack(range) <==> range == "1d" || range == "7d" || range == "30d"
  {
  }
}

=== FILE: event_store.dfy ===
/** The database analytics helpers: recording an event or a page view (errors are logged and
    swallowed), the client-address lookup with its fallback, and the dashboard query that
    counts events by type over a date range. The database and the address service are
    collaborators whose answers arrive as parameters. */
module EventStore {
  import opened Outcomes
  import LocalStorage

  /** The two tables the helpers write to. */
  datatype Table = AnalyticsEvents | PageViews

  /** One inserted row: the event type (or page path), the session and the client address. */
  datatype Insert = Insert(table: Table, key: string, session: string, ip: string)

  /** The result of a tracking call: storage afterwards, the row sent (none when the
      session lookup threw, in which case the address service is never asked either), and
      whether the database accepted it. There is no error case: failures are swallowed. */
  datatype Tracked = Tracked(store: LocalStorage.Store, insert: Option<Insert>, stored: bool)

  /** The address recorded when the lookup service cannot be reached. */
  const UnknownIp := "0.0.0.0"

  /** The client address: the service's answer, or `0.0.0.0` on any failure. */
  function ClientIp(response: Outcome<string>): (ip: string)
    ensures response.Threw? ==> ip == UnknownIp
    ensures response.Returned? ==> ip == response.value
  {
    match response
    case Returned(ip) => ip
    case Threw(_) => UnknownIp
  }

  /** `userSession || generateSessionId()`: the caller's session when non-empty; only
      otherwise is the stored session read (and created if needed). */
  function SessionFor(userSession: Option<string>, store: LocalStorage.Store, suffix: string): (r: LocalStorage.SessionLookup)
    ensures Truthy(userSession) ==> r.id == userSession.value && r.store == store
    ensures !Truthy(userSession) ==> r == LocalStorage.GetOrCreateSession(store, suffix)
    ensures |r.id| > 0
  {
    if Truthy(userSession) then LocalStorage.SessionLookup(userSession.value, store)
    else LocalStorage.GetOrCreateSession(store, suffix)
  }

  /** Shared body of the two tracking helpers. `storageFails` says whether reading or
      writing the stored session throws; that only happens when the caller's session is
      empty, and the exception is swallowed before any row is built. `accepted` is false
      when the insert reports an error or throws. */
  function Record(table: Table, key: string, userSession: Option<string>, store: LocalStorage.Store,
                  suffix: string, storageFails: bool, ipResponse: Outcome<string>, accepted: bool): (r: Tracked)
    ensures r.insert.None? <==> !Truthy(userSession) && storageFails
    ensures r.insert.None? ==> r.store == store && !r.stored
    ensures r.insert.Some? ==>
              r.insert.value == Insert(table, key, SessionFor(userSession, store, suffix).id, ClientIp(ipResponse))
              && r.store == SessionFor(userSession, store, suffix).store && r.stored == accepted
  {
    if !Truthy(userSession) && storageFails then Tracked(store, None, false)
    else
      var session := SessionFor(userSession, store, suffix);
      Tracked(session.store, Some(Insert(table, key, session.id, ClientIp(ipResponse))), accepted)
  }

  /** Record an analytics event; never fails towards the caller. */
  function TrackEvent(eventType: string, userSession: Option<string>, store: LocalStorage.Store,
                      suffix: string, storageFails: bool, ipResponse: Outcome<string>, accepted: bool): (r: Tracked)
    ensures r.insert.Some? ==> r.insert.value.table == AnalyticsEvents && r.insert.value.key == eventType
    ensures Truthy(userSession) ==> r.insert.Some? && r.insert.value.session == userSession.value && r.store == store
    ensures !Truthy(userSession) && !storageFails ==>
              r.insert.Some?
              && r.insert.value.session == LocalStorage.GetOrCreateSession(store, suffix).id
              && r.store == LocalStorage.GetOrCreateSession(store, suffix).store
    ensures !Truthy(userSession) && storageFails ==> r.insert.None? && r.store == store && !r.stored
    ensures r.insert.Some? && ipResponse.Threw? ==> r.insert.value.ip == UnknownIp
    ensures r.insert.Some? && ipResponse.Returned? ==> r.insert.value.ip == ipResponse.value
    ensures r.insert.Some? ==> r.stored == accepted
  {
    Record(AnalyticsEvents, eventType, userSession, store, suffix, storageFails, ipResponse, accepted)
  }

  /** Record a page view; never fails towards the caller. A path left out (`None`) is the
      default "/". */
  function TrackPageView(path: Option<string>, userSession: Option<string>, store: LocalStorage.Store,
                         suffix: string, storageFails: bool, ipResponse: Outcome<string>, accepted: bool): (r: Tracked)
    ensures r.insert.Some? ==> r.insert.value.table == PageViews
    ensures r.insert.Some? && path.Some? ==> r.insert.value.key == path.value
    ensures r.insert.Some? && path.None? ==> r.insert.value.key == "/"
    ensures Truthy(userSession) ==> r.insert.Some? && r.insert.value.session == userSession.value && r.store == store
    ensures !Truthy(userSession) && !storageFails ==>
              r.insert.Some?
              && r.insert.value.session == LocalStorage.GetOrCreateSession(store, suffix).id
              && r.store == LocalStorage.GetOrCreateSession(store, suffix).store
    ensures !Truthy(userSession) && storageFails ==> r.insert.None? && r.store == store && !r.stored
    ensures r.insert.Some? && ipResponse.Threw? ==> r.insert.value.ip == UnknownIp
    ensures r.insert.Some? && ipResponse.Returned? ==> r.insert.value.ip == ipResponse.value
    ensures r.insert.Some? ==> r.stored == accepted
  {
    Record(PageViews, path.GetOr("/"), userSession, store, suffix, storageFails, ipResponse, accepted)
  }

  /** Two events tracked without a caller session, with working storage, share one stored
      session id. */
  lemma SessionSharedAcrossEvents(a: string, b: string, store: LocalStorage.Store, s1: string, s2: string,
                                  ip1: Outcome<string>, ip2: Outcome<string>, ok1: bool, ok2: bool)
    ensures var first := TrackEvent(a, None, store, s1, false, ip1, ok1);
            var second := TrackEvent(b, None, first.store, s2, false, ip2, ok2);
            first.insert.Some? && second.insert.Some? && second.insert.value.session == first.insert.value.session
  {
    LocalStorage.SessionIdIsStable(store, s1, s2);
  }

  /** How many days back the query starts: 1, 7 or 30, and 7 for any other code. */
  function DaysBack(range: string): (days: nat)
    ensures days == 1 <==> range == "1d"
    ensures days == 30 <==> range == "30d"
    ensures days == 7 <==> range != "1d" && range != "30d"
  {
    match range
    case "1d" => 1
    case "7d" => 7
    case "30d" => 30
    case _ => 7
  }

  /** The answer to one select query: rows (possibly null), or an error. */
  datatype Query<T> = Rows(data: Option<seq<T>>) | QueryFailed(message: string)

  /** The six counters the dashboard shows. */
  datatype Counts = Counts(pageViews: nat, recordingStarted: nat, recordingCompleted: nat,
                           shareAttempt: nat, shareCompleted: nat, videoDownloaded: nat)

  const ZeroCounts := Counts(0, 0, 0, 0, 0, 0)

  /** The result of the dashboard query: the day offset it used and the counters. */
  datatype Report = Report(sinceDays: nat, counts: Counts)

  /** Number of times `t` occurs in `s`. */
  function Occurrences(s: seq<string>, t: string): nat {
    if s == [] then 0 else (if s[0] == t then 1 else 0) + Occurrences(s[1..], t)
  }

  /** Counting one more element adds one exactly when it is the counted value. */
  lemma {:induction false} OccurrencesAppend(s: seq<string>, x: string, t: string)
    ensures Occurrences(s + [x], t) == Occurrences(s, t) + (if x == t then 1 else 0)
  {
    if s != [] {
      assert (s + [x])[1..] == s[1..] + [x];
      OccurrencesAppend(s[1..], x, t);
    }
  }

  /** `acc[t] || 0` */
  function CountOf(counts: map<string, nat>, t: string): nat {
    if t in counts then counts[t] else 0
  }

  /** The event-type tally the query builds, one pass over the rows. */
  method CountByType(types: seq<string>) returns (counts: map<string, nat>)
    ensures forall t :: CountOf(counts, t) == Occurrences(types, t)
    ensures forall t :: t in counts <==> t in types
  {
    counts := map[];
    var i := 0;
    while i < |types|
      invariant 0 <= i <= |types|
      invariant forall t :: CountOf(counts, t) == Occurrences(types[..i], t)
      invariant forall t :: t in counts <==> t in types[..i]
    {
      var x := types[i];
      counts := counts[x := CountOf(counts, x) + 1];
      assert types[..i + 1] == types[..i] + [x];
      forall t ensures CountOf(counts, t) == Occurrences(types[..i + 1], t) {
        OccurrencesAppend(types[..i], x, t);
      }
      i := i + 1;
    }
    assert types[..|types|] == types;
  }

  /** The counters defined directly: page-view rows, and the occurrences of each event type. */
  function Tally(pageRows: nat, types: seq<string>): Counts {
    Counts(pageRows,
           Occurrences(types, "recording_started"),
           Occurrences(types, "recording_completed"),
           Occurrences(types, "share_attempt"),
           Occurrences(types, "share_completed"),
           Occurrences(types, "video_downloaded"))
  }

  /** The dashboard query. `pageViews` holds the page-view rows and `events` the event type of
      each event row. A failure of either query yields all-zero counters; null rows count as
      none. */
  method GetAnalyticsData(range: string, pageViews: Query<string>, events: Query<string>) returns (r: Report)
    ensures r.sinceDays == DaysBack(range)
    ensures pageViews.QueryFailed? || events.QueryFailed? ==> r.counts == ZeroCounts
    ensures pageViews.Rows? && events.Rows? ==>
              r.counts == Tally(|pageViews.data.GetOr([])|, events.data.GetOr([]))
  {
    var since := DaysBack(range);
    if pageViews.QueryFailed? || events.QueryFailed? {
      return Report(since, ZeroCounts);
    }
    var tally := CountByType(events.data.GetOr([]));
    var counts := Counts(|pageViews.data.GetOr([])|,
                         CountOf(tally, "recording_started"),
                         CountOf(tally, "recording_completed"),
                         CountOf(tally, "share_attempt"),
                         CountOf(tally, "share_completed"),
                         CountOf(tally, "video_downloaded"));
    return Report(since, counts);
  }

  /** Events of any other type leave every counter unchanged. */
  lemma UnrelatedEventsIgnored(pageRows: nat, types: seq<string>, x: string)
    requires x !in {"recording_started", "recording_completed", "share_attempt", "share_completed", "video_downloaded"}
    ensures Tally(pageRows, types + [x]) == Tally(pageRows, types)
  {
    OccurrencesAppend(types, x, "recording_started");
    OccurrencesAppend(types, x, "recording_completed");
    OccurrencesAppend(types, x, "share_attempt");
    OccurrencesAppend(types, x, "share_completed");
    OccurrencesAppend(types, x, "video_downloaded");
  }
}

=== FILE: orchestrator.dfy ===
/** The capture screen's handlers: start-up, the record button with its lens restart, camera
    switch, manual lens reload, focus and visibility recovery, and the preview and modal
    callbacks. Each handler reads a snapshot of the camera and recording contexts and the
    outcomes of the collaborators it awaits, and returns the calls it makes, in order. */
module Orchestrator {
  import opened Outcomes
  import opened Capture
  import Recorder

  /** What the handlers read from the camera and recording contexts at the time of the call. */
  datatype Snapshot = Snapshot(
    camera: CameraState,
    isReady: bool,
    canvas: Option<Canvas>,
    stream: Option<Stream>,
    recorder: Recorder.RecorderView)

  /** Start-up. Does nothing more than a log line when the camera is already ready; otherwise
      checks permission, requests a stream only with permission, and initializes the engine
      only with a stream. Exceptions are caught and logged. */
  function InitializeApp(camera: CameraState, permission: Outcome<bool>, stream: Outcome<Option<Stream>>,
                         engine: Outcome<bool>): (r: seq<Effect>)
    ensures camera == Ready ==> r == [Log(AlreadyReady)]
    ensures CheckPermission in r <==> camera != Ready
    ensures RequestStream in r <==> camera != Ready && permission == Returned(true)
    ensures InitEngine in r <==> camera != Ready && permission == Returned(true)
                                 && stream.Returned? && stream.value.Some?
    ensures forall e :: e in r ==> e.Log? || e == CheckPermission || e == RequestStream || e == InitEngine
    ensures (exists e :: e in r && e.Log? && e.note.InitFailed?)
            <==> camera != Ready
                 && (permission.Threw?
                     || (permission == Returned(true) && (stream.Threw? || (stream.value.Some? && engine.Threw?))))
  {
    if camera == Ready then [Log(AlreadyReady)]
    else
      var asked := [Log(InitStarting), CheckPermission];
      match permission
      case Threw(e) => asked + [Log(InitFailed(e))]
      case Returned(granted) =>
        if !granted then asked
        else
          var requested := asked + [RequestStream];
          match stream
          case Threw(e) => requested + [Log(InitFailed(e))]
          case Returned(None) => requested
          case Returned(Some(s)) =>
            var summary := [Log(StreamSummary(s.videoTracks, |s.audioTracks|))]
                           + (if |s.audioTracks| == 0 then [Log(SilentStream)] else []);
            var initialized := requested + summary + [InitEngine];
            match engine
            case Threw(e) => initialized + [Log(InitFailed(e))]
            case Returned(ok) => initialized + (if ok then [Log(InitComplete)] else [])
  }

  /** Window focus: restore the feed 200 ms later, only when the camera is ready. */
  function OnFocus(camera: CameraState): (r: seq<Effect>)
    ensures SchedulesRestore(r) <==> camera == Ready
    ensures camera != Ready ==> r == []
    ensures camera == Ready ==> After(200, [RestoreFeed]) in r
  {
    if camera == Ready then [Log(Focused), After(200, [RestoreFeed])] else []
  }

  /** Visibility change: restore the feed 100 ms later, only when the page became visible
      and the camera is ready. */
  function OnVisibilityChange(camera: CameraState, visible: bool): (r: seq<Effect>)
    ensures SchedulesRestore(r) <==> visible && camera == Ready
    ensures !(visible && camera == Ready) ==> r == []
    ensures visible && camera == Ready ==> After(100, [RestoreFeed]) in r
  {
    if visible && camera == Ready then [Log(Visible), After(100, [RestoreFeed])] else []
  }

  /** Camera switch: nothing unless the camera context is ready. */
  function HandleSwitchCamera(s: Snapshot, switched: Outcome<Option<Stream>>): (r: seq<Effect>)
    ensures SwitchCamera in r <==> s.isReady
    ensures !s.isReady ==> r == []
    ensures forall e :: e in r ==> e.Log? || e == SwitchCamera
  {
    if !s.isReady then []
    else
      [Log(Switching), SwitchCamera]
        + match switched
          case Returned(Some(st)) => [Log(Switched(|st.audioTracks|))]
          case Returned(None) => []
          case Threw(e) => [Log(SwitchFailed(e))]
  }

  /** The switch guard reads readiness only: the recording state plays no part, so a
      switch requested while recording goes ahead. */
  lemma SwitchIgnoresRecordingState(s: Snapshot, switched: Outcome<Option<Stream>>, state: RecordingState, time: int)
    ensures HandleSwitchCamera(s.(recorder := s.recorder.(state := state, time := time)), switched)
         == HandleSwitchCamera(s, switched)
  {
  }

  /** Manual lens reload: refused with a log line unless the camera context is ready. */
  function HandleReloadEffect(s: Snapshot, reloaded: Outcome<bool>): (r: seq<Effect>)
    ensures ReloadLens in r <==> s.isReady
    ensures !s.isReady ==> r == [Log(CannotReload)]
    ensures forall e :: e in r ==> e.Log? || e == ReloadLens
  {
    if !s.isReady then [Log(CannotReload)]
    else
      [Log(ManualReload), ReloadLens]
        + match reloaded
          case Returned(true) => [Log(LensReloaded)]
          case Returned(false) => [Log(LensReloadFailed)]
          case Threw(e) => [Log(ReloadError(e))]
  }

  /** The lens restart that precedes every recording start. Whatever the engine answers,
      the sequence goes on: a success waits 500 ms, a failure or exception is only logged. */
  function LensRestart(restarted: Outcome<bool>): (r: seq<Effect>)
    ensures |r| >= 3 && r[..2] == [Log(RestartingLens), ReloadLens]
    ensures Wait(500) in r <==> restarted == Returned(true)
    ensures forall e :: e in r ==> !e.ToggleRecording?
  {
    [Log(RestartingLens), ReloadLens]
      + match restarted
        case Returned(true) => [Log(LensRestarted), Wait(500)]
        case Returned(false) => [Log(LensRestartFailed)]
        case Threw(e) => [Log(LensRestartError(e))]
  }

  /** One log line per audio track, plus a warning for each track that is not live or not
      enabled. `from` is the index of the first track of `tracks`. */
  function AudioTrackReport(tracks: seq<AudioTrack>, from: nat): (r: seq<Effect>)
    ensures forall e :: e in r ==> e.Log? && (e.note.AudioTrackState? || e.note.AudioTrackNotReady?)
    ensures forall i :: 0 <= i < |tracks| ==>
              (Log(AudioTrackNotReady(from + i)) in r <==> !Usable(tracks[i]))
    ensures forall i: nat :: Log(AudioTrackNotReady(i)) in r ==> from <= i < from + |tracks|
    decreases |tracks|
  {
    if tracks == [] then []
    else
      var t := tracks[0];
      var rest := AudioTrackReport(tracks[1..], from + 1);
      assert forall i :: 1 <= i < |tracks| ==> tracks[1..][i - 1] == tracks[i];
      [Log(AudioTrackState(from, t.live, t.enabled))]
        + (if !Usable(t) then [Log(AudioTrackNotReady(from))] else [])
        + rest
  }

  /** The stream check before a recording starts: counts, and either a silent-recording
      warning or the per-track report. It never blocks. */
  function PreRecordingReport(st: Stream): (r: seq<Effect>)
    ensures OnlyLogs(r)
    ensures Log(SilentRecording) in r <==> |st.audioTracks| == 0
    ensures forall i :: 0 <= i < |st.audioTracks| ==>
              (Log(AudioTrackNotReady(i)) in r <==> !Usable(st.audioTracks[i]))
  {
    [Log(PreRecordingCheck(st.videoTracks, |st.audioTracks|))]
      + if |st.audioTracks| == 0 then [Log(SilentRecording)] else AudioTrackReport(st.audioTracks, 0)
  }

  /** An idle press: restart the lens, check the stream, and forward the press unless there
      is no stream. The lens outcome never decides whether the press is forwarded. */
  function IdlePress(canvas: Canvas, stream: Option<Stream>, restarted: Outcome<bool>): (r: seq<Effect>)
    ensures |r| > 0
    ensures Forwards(r) <==> stream.Some?
    ensures Forwards(r) ==> r[|r| - 1] == ToggleRecording(canvas, stream)
    ensures ReloadLens in r
    ensures forall e :: e in r ==> !e.StartRecording? && e != StopRecording
  {
    var prepared := LensRestart(restarted);
    assert prepared[1] == ReloadLens;
    match stream
    case None =>
      var r := prepared + [Log(NoStreamForRecording)];
      assert forall e :: e in r ==> e in prepared || e == Log(NoStreamForRecording);
      r
    case Some(st) =>
      var report := PreRecordingReport(st);
      var r := prepared + report + [ToggleRecording(canvas, stream)];
      assert r[|r| - 1] == ToggleRecording(canvas, stream);
      assert forall e :: e in r ==> e in prepared || e in report || e == ToggleRecording(canvas, stream);
      r
  }

  /** The record button. Without a canvas: one log line. While recording: forward the press
      only after three seconds. While idle: see `IdlePress`. While processing: nothing.
      `restarted` is the lens-reload outcome. */
  function HandleToggleRecording(s: Snapshot, restarted: Outcome<bool>): (r: seq<Effect>)
    ensures s.canvas.None? ==> r == [Log(CanvasUnavailable)]
    ensures Forwards(r) <==> s.canvas.Some? && ((s.recorder.state == Recording && s.recorder.time >= 3)
                                                || (s.recorder.state == Idle && s.stream.Some?))
    ensures Forwards(r) ==> r[|r| - 1] == ToggleRecording(s.canvas.value, s.stream)
    ensures s.canvas.Some? && s.recorder.state == Recording && s.recorder.time < 3 ==>
              r == [Log(TooShort(s.recorder.time))]
    ensures ReloadLens in r <==> s.canvas.Some? && s.recorder.state == Idle
    ensures s.canvas.Some? && s.recorder.state == Processing ==> r == []
    ensures forall e :: e in r ==> !e.StartRecording? && e != StopRecording
  {
    match s.canvas
    case None => [Log(CanvasUnavailable)]
    case Some(canvas) =>
      match s.recorder.state
      case Recording =>
        if s.recorder.time >= 3 then
          var r := [ToggleRecording(canvas, s.stream)];
          assert r[0] in r;
          r
        else [Log(TooShort(s.recorder.time))]
      case Idle => IdlePress(canvas, s.stream, restarted)
      case Processing => []
  }

  /** Whatever the lens reload answers, an idle press with a canvas and a stream ends by
      forwarding the same start request. */
  lemma LensFailureNeverBlocksStart(s: Snapshot, a: Outcome<bool>, b: Outcome<bool>)
    requires s.canvas.Some? && s.stream.Some? && s.recorder.state == Idle
    ensures var ra := HandleToggleRecording(s, a);
            var rb := HandleToggleRecording(s, b);
            Forwards(ra) && Forwards(rb) && ra[|ra| - 1] == rb[|rb| - 1]
  {
  }

  /** The record button followed through the recording context: a forwarded press is
      handed to the context's own toggle, which reads the same recorder state. `started` is
      what the recording hook's start call returns. */
  function PressRecord(s: Snapshot, restarted: Outcome<bool>, started: bool): seq<Effect> {
    var handled := HandleToggleRecording(s, restarted);
    if Forwards(handled) then
      handled[..|handled| - 1] + Recorder.Toggle(s.recorder, s.canvas, s.stream, started)
    else handled
  }

  /** Across both layers, the hook is told to stop exactly when a canvas exists, the
      recorder is recording and at least three seconds have passed, and told to start
      exactly when a canvas and a stream exist and the recorder is idle, whatever the lens
      reload answered. */
  lemma PressRecordStartsAndStops(s: Snapshot, restarted: Outcome<bool>, started: bool)
    ensures var r := PressRecord(s, restarted, started);
            && (StopRecording in r <==> s.canvas.Some? && s.recorder.state == Recording && s.recorder.time >= 3)
            && ((exists c, a :: StartRecording(c, a) in r)
                <==> s.canvas.Some? && s.recorder.state == Idle && s.stream.Some?)
  {
    var handled := HandleToggleRecording(s, restarted);
    var r := PressRecord(s, restarted, started);
    if Forwards(handled) {
      var head := handled[..|handled| - 1];
      var delivered := Recorder.Toggle(s.recorder, s.canvas, s.stream, started);
      assert r == head + delivered;
      assert forall e :: e in head ==> e in handled;
      assert forall e :: e in r ==> e in head || e in delivered;
      if s.recorder.state == Idle {
        assert StartRecording(s.canvas.value, s.stream) in delivered;
        assert StartRecording(s.canvas.value, s.stream) in r;
      }
    }
  }

  /** Closing the preview hides it and restores the camera 100 ms later. */
  function HandleClosePreview(): (r: seq<Effect>)
    ensures ShowPreview(false) in r && SchedulesRestore(r) && RestoreFeed !in r
    ensures After(100, [RestoreFeed]) in r
  {
    [ShowPreview(false), Log(PreviewClosed), After(100, [RestoreFeed])]
  }

  /** The preview's share button starts the processing job. */
  function HandleProcessAndShare(): (r: seq<Effect>)
    ensures ProcessAndShare in r && OnlyLogs(r[..|r| - 1])
  {
    [Log(StartingProcessing), ProcessAndShare]
  }

  /** Download from the screen: the recording context's download, then 500 ms later hide
      the preview and restore the camera. */
  function HandleDownload(): (r: seq<Effect>)
    ensures |r| == 2 && r[0] == DownloadVideo && SchedulesRestore(r) && RestoreFeed !in r
    ensures r[1].After? && r[1].ms == 500 && ShowPreview(false) in r[1].deferred
  {
    [DownloadVideo, After(500, [ShowPreview(false), RestoreFeed])]
  }

  /** Cancelling the rendering modal hides it and restores the camera 100 ms later; the job
      itself is not stopped. */
  function HandleModalCancel(): (r: seq<Effect>)
    ensures ShowRenderingModal(false) in r && SchedulesRestore(r)
    ensures After(100, [RestoreFeed]) in r
    ensures forall e :: e in r ==> e != ClearRecording && e != StopRecording
  {
    [ShowRenderingModal(false), Log(ProcessingCancelled), After(100, [RestoreFeed])]
  }

  /** Explicit permission request: with a stream, stop its tracks and start up again. */
  function HandleRequestPermission(requested: Outcome<Option<Stream>>): (r: seq<Effect>)
    ensures Reinitialize in r <==> requested.Returned? && requested.value.Some?
    ensures Reinitialize in r ==>
              exists i, j :: 0 <= i < j < |r| && r[i] == StopTracks && r[j] == Reinitialize
  {
    match requested
    case Returned(Some(st)) =>
      var r := [Log(RequestingPermission), Log(PermissionGranted(|st.audioTracks|)), StopTracks, Reinitialize];
      assert r[2] == StopTracks && r[3] == Reinitialize;
      r
    case Returned(None) => [Log(RequestingPermission)]
    case Threw(e) => [Log(RequestingPermission), Log(PermissionFailed(e))]
  }

  /** The error screen's retry button starts up again. */
  function HandleRetry(): (r: seq<Effect>)
    ensures Reinitialize in r
  {
    [Log(Retrying), Reinitialize]
  }

  /** The rendering modal's "complete" flag: progress 100 and no (truthy) error message. */
  predicate ModalComplete(progress: int, error: Option<string>) {
    progress == 100 && !Truthy(error)
  }

  /** The rendering modal's error flag. */
  predicate ModalHasError(error: Option<string>) {
    Truthy(error)
  }

  /** The modal never shows complete and failed at once, and with a non-empty error it is
      never complete. An empty error message counts as no error. */
  lemma ModalFlagsExclusive(progress: int, error: Option<string>)
    ensures !(ModalComplete(progress, error) && ModalHasError(error))
    ensures ModalComplete(progress, error) <==> progress == 100 && !ModalHasError(error)
    ensures ModalComplete(100, Some("")) && !ModalHasError(Some(""))
  {
  }
}

=== FILE: outcomes.dfy ===
/** Values shared by every part of the model: optional values, the settled result of an
    awaited call, and the JavaScript truthiness rules the source relies on. */
module Outcomes {

  /** A value that may be absent (`null`/`undefined` in the source). */
  datatype Option<+T> = None | Some(value: T) {

    /** The wrapped value, or `default` when absent. */
    function GetOr(default: T): T {
      match this
      case Some(v) => v
      case None => default
    }
  }

  /** What a thrown value looks like to a `catch` block. */
  datatype Thrown =
    | ErrorObject(message: string)   // an `Error` instance
    | OtherValue(text: string)       // anything else that was thrown

  /** The settled result of an awaited collaborator call: it returned, or it threw. */
  datatype Outcome<+T> = Returned(value: T) | Threw(error: Thrown)

  /** `error instanceof Error ? error.message : fallback` */
  function MessageOr(e: Thrown, fallback: string): (m: string)
    ensures e.ErrorObject? ==> m == e.message
    ensures e.OtherValue? ==> m == fallback
  {
    match e
    case ErrorObject(msg) => msg
    case OtherValue(_) => fallback
  }

  /** JavaScript truthiness of a `string | null`: null and "" are both falsy. */
  predicate Truthy(s: Option<string>) {
    s.Some? && |s.value| > 0
  }

  /** JavaScript truthiness of an optional number: undefined and 0 are falsy. */
  predicate TruthyNumber(n: Option<int>) {
    n.Some? && n.value != 0
  }
}

=== FILE: preview.dfy ===
/** The preview screen shown after a recording: the platform label, the share button, and
    the download button that tracks the download before saving the file. */
module Preview {
  import opened Outcomes
  import opened Text
  import opened Capture
  import LocalStorage

  /** Where the recording was made, as the preview labels it. */
  datatype Platform = Android | IPhone | Desktop

  /** The Android flag wins over the iOS flag; with neither it is a desktop recording. */
  function PlatformOf(video: Video): (p: Platform)
    ensures p == Android <==> video.android
    ensures p == IPhone <==> !video.android && video.ios
    ensures p == Desktop <==> !video.android && !video.ios
  {
    if video.android then Android else if video.ios then IPhone else Desktop
  }

  /** The share button: start the processing job, then close the preview. */
  function HandleShare(): (r: seq<Effect>)
    ensures |r| == 2 && r[0] == ProcessAndShare && r[1] == Close
  {
    [ProcessAndShare, Close]
  }

  /** Storage after the handler, its effects, and whether an exception escaped it. */
  datatype DownloadStep = DownloadStep(store: LocalStorage.Store, effects: seq<Effect>, escaped: bool)

  /** The event name recorded for a download. */
  const DownloadEvent := "video_downloaded"

  /** The catch block as written: its first statement logs, which throws again when the
      preview was given no logger, so nothing after it runs. */
  function CatchAsWritten(video: Video, store: LocalStorage.Store, effects: seq<Effect>, e: Thrown,
                          hasLogger: bool): DownloadStep
  {
    if !hasLogger then DownloadStep(store, effects, true)
    else DownloadStep(store, effects + [Log(DownloadTrackingFailed(e)), SaveFile(video, VideoExtension(video.mime)),
                                        After(500, [Close])], false)
  }

  /** The download button as the source writes it. `storageError` is an exception thrown
      while reading or writing the session id; `hasLogger` says whether the `addLog`
      property is a function. Calling a missing logger throws a TypeError. */
  function HandleDownloadAsWritten(video: Video, store: LocalStorage.Store, suffix: string,
                                   storageError: Option<Thrown>, hasLogger: bool): (r: DownloadStep)
    ensures hasLogger ==> !r.escaped && SaveFile(video, VideoExtension(video.mime)) in r.effects
                          && After(500, [Close]) in r.effects
    ensures !hasLogger ==> r.escaped && forall e :: e in r.effects ==> !e.SaveFile? && !e.After?
  {
    match storageError
    case Some(e) => CatchAsWritten(video, store, [], e, hasLogger)
    case None =>
      var session := LocalStorage.GetOrCreateSession(store, suffix);
      var tracked := [StoreEvent(DownloadEvent, session.id)];
      if !hasLogger then
        CatchAsWritten(video, session.store, tracked, ErrorObject("addLog is not a function"), hasLogger)
      else
        DownloadStep(session.store, tracked + [Log(DownloadTracked), SaveFile(video, VideoExtension(video.mime)),
                                               Log(DownloadInitiated), After(500, [Close])], false)
  }

  /** The capture screen renders the preview without a logger; a download press then saves
      nothing and leaves the preview open. */
  lemma DownloadLostWithoutLogger(video: Video, store: LocalStorage.Store, suffix: string)
    ensures var r := HandleDownloadAsWritten(video, store, suffix, None, false);
            r.escaped && SaveFile(video, VideoExtension(video.mime)) !in r.effects
            && StoreEvent(DownloadEvent, LocalStorage.GetOrCreateSession(store, suffix).id) in r.effects
  {
  }

  /** The log lines of the handler, kept only when a logger was given. */
  function Logged(hasLogger: bool, notes: seq<Effect>): (r: seq<Effect>)
    ensures hasLogger ==> r == notes
    ensures !hasLogger ==> r == []
  {
    if hasLogger then notes else []
  }

  /** The download button with logging made best-effort: the file is saved and the preview
      closed 500 ms later on every path, and no exception escapes. */
  function HandleDownload(video: Video, store: LocalStorage.Store, suffix: string,
                          storageError: Option<Thrown>, hasLogger: bool): (r: DownloadStep)
    ensures !r.escaped
    ensures SaveFile(video, VideoExtension(video.mime)) in r.effects
    ensures After(500, [Close]) in r.effects
    ensures storageError.Some? ==> r.store == store
    ensures storageError.None? ==>
              r.store == LocalStorage.GetOrCreateSession(store, suffix).store
              && StoreEvent(DownloadEvent, LocalStorage.GetOrCreateSession(store, suffix).id) in r.effects
  {
    var save := SaveFile(video, VideoExtension(video.mime));
    match storageError
    case Some(e) =>
      var r := Logged(hasLogger, [Log(DownloadTrackingFailed(e))]) + [save, After(500, [Close])];
      assert r[|r| - 2] == save && r[|r| - 1] == After(500, [Close]);
      DownloadStep(store, r, false)
    case None =>
      var session := LocalStorage.GetOrCreateSession(store, suffix);
      var r := [StoreEvent(DownloadEvent, session.id)] + Logged(hasLogger, [Log(DownloadTracked)])
               + [save] + Logged(hasLogger, [Log(DownloadInitiated)]) + [After(500, [Close])];
      assert r[0] == StoreEvent(DownloadEvent, session.id) && r[|r| - 1] == After(500, [Close]);
      assert save in r by {
        if hasLogger { assert r[2] == save; } else { assert r[1] == save; }
      }
      DownloadStep(session.store, r, false)
  }

  /** With a logger the corrected handler does exactly what the source does. */
  lemma CorrectedAgreesWithLogger(video: Video, store: LocalStorage.Store, suffix: string, storageError: Option<Thrown>)
    ensures HandleDownload(video, store, suffix, storageError, true)
         == HandleDownloadAsWritten(video, store, suffix, storageError, true)
  {
  }
}

=== FILE: recorder.dfy ===
/** The recording context: the wrapper around the recording hook that enforces the
    minimum duration, routes a finished recording to sharing or to the preview, and runs
    the process-then-share job with its download fallback. The recording hook and the
    video processor are collaborators whose outcomes arrive as parameters. */
module Recorder {
  import opened Outcomes
  import opened Text
  import opened Capture

  /** What the context reads when one of its functions runs. `canRestore` says whether the
      provider was given a camera-restore callback. */
  datatype RecorderView = RecorderView(
    state: RecordingState,
    time: int,
    video: Option<Video>,
    autoShare: bool,
    canRestore: bool)

  /** The processing fields the rendering modal shows. */
  datatype Job = Job(busy: bool, progress: int, message: string, error: Option<string>)

  /** One progress report of the video processor. */
  datatype Progress = Progress(percent: int, message: string)

  /** What the video processor did: the progress reports it made, then its result. */
  datatype ProcessRun = ProcessRun(updates: seq<Progress>, result: Outcome<Video>)

  /** New job fields and the effects of one call. */
  datatype JobStep = JobStep(job: Job, effects: seq<Effect>)

  /** Shortest recording, in seconds, that may be stopped. */
  const MinimumSeconds := 3

  /** Canvas size below which a low-resolution warning is logged. */
  const MinWidth := 640
  const MinHeight := 480

  /** The log lines describing the audio stream handed to the recorder. */
  function AudioReport(audio: Option<Stream>): (r: seq<Effect>)
    ensures OnlyLogs(r)
    ensures audio.None? ==> r == [Log(NoAudioStream)]
    ensures audio.Some? ==> |r| == 1 + |audio.value.audioTracks|
    ensures audio.Some? ==> r[0] == Log(AudioStreamTracks(|audio.value.audioTracks|))
    ensures audio.Some? ==>
              forall i :: 0 <= i < |audio.value.audioTracks| ==>
                r[i + 1] == Log(AudioTrackInfo(i, audio.value.audioTracks[i].live, audio.value.audioTracks[i].enabled))
  {
    match audio
    case None => [Log(NoAudioStream)]
    case Some(s) =>
      var tracks := s.audioTracks;
      [Log(AudioStreamTracks(|tracks|))]
        + seq(|tracks|, i requires 0 <= i < |tracks| => Log(AudioTrackInfo(i, tracks[i].live, tracks[i].enabled)))
  }

  /** Start recording when idle, stop when recording (only after the minimum duration), and
      nothing while the hook is processing. `started` is what the hook's start call returns. */
  function Toggle(v: RecorderView, canvas: Option<Canvas>, audio: Option<Stream>, started: bool): (r: seq<Effect>)
    ensures StopRecording in r <==> v.state == Recording && v.time >= MinimumSeconds
    ensures StopRecording in r ==> Track(RecordingCompleted(v.time, HasAudio(audio))) in r
    ensures v.state == Recording && v.time < MinimumSeconds ==> r == [Log(TooShort(v.time))]
    ensures forall c, a :: StartRecording(c, a) in r <==> v.state == Idle && canvas == Some(c) && a == audio
    ensures v.state == Idle && canvas.None? ==> r == [Log(CanvasRequired)]
    ensures v.state == Idle && canvas.Some? ==>
              (Log(LowResolution(canvas.value.width, canvas.value.height)) in r
               <==> canvas.value.width < MinWidth || canvas.value.height < MinHeight)
    ensures v.state == Processing ==> r == []
  {
    match v.state
    case Recording =>
      if v.time >= MinimumSeconds then [Track(RecordingCompleted(v.time, HasAudio(audio))), StopRecording]
      else [Log(TooShort(v.time))]
    case Idle =>
      (match canvas
       case None => [Log(CanvasRequired)]
       case Some(c) =>
         var warning := if c.width < MinWidth || c.height < MinHeight then [Log(LowResolution(c.width, c.height))] else [];
         warning + AudioReport(audio)
           + [Track(RecordingStarted(HasAudio(audio), c.width, c.height)), StartRecording(c, audio)]
           + (if started then [] else [Log(StartFailed)]))
    case Processing => []
  }

  /** A low-resolution canvas is only warned about: the recording is still started. */
  lemma LowResolutionDoesNotBlock(v: RecorderView, c: Canvas, audio: Option<Stream>, started: bool)
    requires v.state == Idle
    requires c.width < MinWidth || c.height < MinHeight
    ensures var r := Toggle(v, Some(c), audio, started);
            Log(LowResolution(c.width, c.height)) in r && StartRecording(c, audio) in r
  {
  }

  /** What happens once the recorder settles: with a video and an idle recorder, either the
      job starts (auto-share) or the preview is shown; otherwise nothing. */
  function Route(v: RecorderView): (r: seq<Effect>)
    ensures ProcessAndShare in r <==> v.video.Some? && v.state == Idle && v.autoShare
    ensures ShowPreview(true) in r <==> v.video.Some? && v.state == Idle && !v.autoShare
    ensures v.video.None? || v.state != Idle ==> r == []
    ensures forall e :: e in r ==> e.Log? || e == ProcessAndShare || e == ShowPreview(true)
  {
    if v.video.Some? && v.state == Idle && v.autoShare then [Log(AutoSharing), ProcessAndShare]
    else if v.video.Some? && v.state == Idle && !v.autoShare then [Log(ShowingPreview), ShowPreview(true)]
    else []
  }

  /** Discard the recording, then restore the camera feed 200 ms later when a restore
      callback was provided. */
  function Clear(v: RecorderView): (r: seq<Effect>)
    ensures |r| > 0 && r[0] == ClearRecording
    ensures SchedulesRestore(r) <==> v.canRestore
    ensures v.canRestore ==> After(200, [RestoreFeed]) in r
    ensures RestoreFeed !in r
  {
    [ClearRecording] + (if v.canRestore then [Log(RestoringAfterClear), After(200, [RestoreFeed])] else [])
  }

  /** `a || b || fallback` over numbers: the recorded duration when it is set and non-zero,
      else the elapsed time when non-zero, else the fallback. */
  function DurationOr(recorded: Option<int>, time: int, fallback: int): (d: int)
    ensures TruthyNumber(recorded) ==> d == recorded.value
    ensures !TruthyNumber(recorded) && time != 0 ==> d == time
    ensures !TruthyNumber(recorded) && time == 0 ==> d == fallback
    ensures fallback != 0 ==> d != 0
  {
    if TruthyNumber(recorded) then recorded.value else if time != 0 then time else fallback
  }

  /** Neither now nor in any deferred step do the effects clear the recording or hide the
      preview: the captured file is still there for the user. */
  predicate KeepsRecording(effects: seq<Effect>) {
    forall e :: e in effects ==>
      e != ClearRecording && e != ShowPreview(false)
      && (e.After? ==> ClearRecording !in e.deferred && ShowPreview(false) !in e.deferred)
  }

  /** Save the recorded file as is, named by the mp4 rule, and restore the camera 500 ms
      later when possible; nothing at all without a video. */
  function Download(v: RecorderView): (r: seq<Effect>)
    ensures v.video.None? ==> r == []
    ensures v.video.Some? ==> SaveFile(v.video.value, VideoExtension(v.video.value.mime)) in r
    ensures forall e :: e in r && e.SaveFile? ==> v.video.Some? && e.video == v.video.value
    ensures SchedulesRestore(r) <==> v.video.Some? && v.canRestore
    ensures forall e :: e in r && e.SaveFile? ==> e.extension == VideoExtension(e.video.mime)
    ensures KeepsRecording(r)
  {
    match v.video
    case None => []
    case Some(video) =>
      [ Track(VideoDownloaded(DurationOr(video.recordingDuration, v.time, 0), VideoFormat(video.mime))),
        SaveFile(video, VideoExtension(video.mime)),
        Log(Downloaded),
        After(500, if v.canRestore then [Log(RestoringAfterDownload), RestoreFeed] else []) ]
  }

  /** The job fields as a new job starts: busy, progress 0, no error; the message is kept. */
  function BeginJob(job: Job): (j: Job)
    ensures j.busy && j.progress == 0 && j.error.None?
    ensures j.message == job.message
  {
    job.(busy := true, progress := 0, error := None)
  }

  /** Apply the processor's progress reports in order: the last report wins, and nothing but
      the progress and message fields changes. */
  function ApplyProgress(job: Job, updates: seq<Progress>): (j: Job)
    ensures updates == [] ==> j == job
    ensures updates != [] ==>
              j.progress == updates[|updates| - 1].percent && j.message == updates[|updates| - 1].message
    ensures j.busy == job.busy && j.error == job.error
    decreases |updates|
  {
    if updates == [] then job
    else ApplyProgress(job.(progress := updates[0].percent, message := updates[0].message), updates[1..])
  }

  /** The log lines written for the processor's progress reports. */
  function ProgressLogs(updates: seq<Progress>): (r: seq<Effect>)
    ensures OnlyLogs(r) && |r| == |updates|
  {
    seq(|updates|, i requires 0 <= i < |updates| => Log(ProgressNote(updates[i].message, updates[i].percent)))
  }

  /** The catch block: record the message, download the original recording, end the job. */
  function Fail(v: RecorderView, job: Job, effects: seq<Effect>, e: Thrown): (r: JobStep)
    ensures !r.job.busy && r.job.error == Some(MessageOr(e, "Processing failed"))
    ensures r.job.progress == job.progress && r.job.message == job.message
    ensures |r.effects| > |effects| && r.effects[..|effects|] == effects
    ensures v.video.Some? ==> SaveFile(v.video.value, VideoExtension(v.video.value.mime)) in r.effects[|effects|..]
    ensures KeepsRecording(effects) ==> KeepsRecording(r.effects)
  {
    var added := [Log(ProcessingFailed(e))] + Download(v);
    assert (effects + added)[|effects|..] == added;
    JobStep(job.(busy := false, error := Some(MessageOr(e, "Processing failed"))), effects + added)
  }

  /** The job either failed: the video processor or the share call threw. */
  predicate JobFailed(run: ProcessRun, share: Outcome<bool>) {
    run.result.Threw? || share.Threw?
  }

  /** Process the recording, then offer it to the share surface. On any exception the error
      is recorded and the original recording is downloaded; whether the share surface
      accepted the file or not, the preview is hidden and the recording cleared a second
      later. `run` and `share` are the outcomes of the hidden processor. */
  function ProcessAndShareVideo(v: RecorderView, job: Job, run: ProcessRun, share: Outcome<bool>): (r: JobStep)
    ensures v.video.None? ==> r == JobStep(job, [Log(NoVideo)])
    ensures v.video.Some? ==> !r.job.busy
    ensures v.video.Some? && run.updates == [] ==> r.job.progress == 0
    ensures v.video.Some? && run.updates != [] ==> r.job.progress == run.updates[|run.updates| - 1].percent
    ensures v.video.Some? ==> (r.job.error.Some? <==> JobFailed(run, share))
    ensures v.video.Some? && run.result.Threw? ==>
              r.job.error == Some(MessageOr(run.result.error, "Processing failed"))
    ensures v.video.Some? && run.result.Returned? && share.Threw? ==>
              r.job.error == Some(MessageOr(share.error, "Processing failed"))
    ensures v.video.Some? && JobFailed(run, share) ==>
              SaveFile(v.video.value, VideoExtension(v.video.value.mime)) in r.effects
    ensures v.video.Some? && JobFailed(run, share) ==> KeepsRecording(r.effects)
    ensures v.video.Some? && !JobFailed(run, share) ==>
              After(1000, [ShowPreview(false)] + Clear(v)) in r.effects
    ensures v.video.Some? && !JobFailed(run, share) ==>
              ClearRecording !in r.effects && ShowPreview(false) !in r.effects
              && forall e :: e in r.effects ==> !e.SaveFile?
    ensures v.video.Some? ==>
              r.effects[0] == Track(ShareAttempt(DurationOr(v.video.value.recordingDuration, v.time, 0),
                                                 VideoFormat(v.video.value.mime)))
              && Log(ProcessingSeconds(DurationOr(v.video.value.recordingDuration, v.time, 5))) in r.effects
  {
    match v.video
    case None => JobStep(job, [Log(NoVideo)])
    case Some(video) =>
      var duration := DurationOr(video.recordingDuration, v.time, 5);
      var started := ApplyProgress(BeginJob(job), run.updates);
      var opening := [Track(ShareAttempt(DurationOr(video.recordingDuration, v.time, 0), VideoFormat(video.mime))),
                      Log(ProcessingSeconds(duration))]
                     + ProgressLogs(run.updates);
      assert KeepsRecording(opening) by {
        assert forall e :: e in opening ==> e.Track? || e.Log?;
      }
      match run.result
      case Threw(e) => Fail(v, started, opening, e)
      case Returned(file) =>
        var offered := opening + [Log(AttemptingShare)];
        assert KeepsRecording(offered) by {
          assert forall e :: e in offered ==> e in opening || e == Log(AttemptingShare);
        }
        match share
        case Threw(e) => Fail(v, started, offered, e)
        case Returned(ok) =>
          JobStep(started.(busy := false),
                  offered + [Track(ShareCompleted(ok, duration, VideoFormat(file.mime))),
                             Log(if ok then Shared else DownloadedWithInstructions),
                             After(1000, [ShowPreview(false)] + Clear(v))])
  }

  /** A share surface that declines (returns false) is not an error: both answers end the
      job the same way apart from the log line and the metric. */
  lemma ShareDeclinedIsNotAnError(v: RecorderView, job: Job, run: ProcessRun)
    requires v.video.Some? && run.result.Returned?
    ensures var yes := ProcessAndShareVideo(v, job, run, Returned(true));
            var no := ProcessAndShareVideo(v, job, run, Returned(false));
            yes.job == no.job && yes.job.error.None?
            && After(1000, [ShowPreview(false)] + Clear(v)) in no.effects
  {
  }
}

=== FILE: storage.dfy ===
/** The browser's `localStorage` as a finite map, and the get-or-create analytics session id
    that two places in the source compute the same way. */
module LocalStorage {
  import opened Outcomes

  type Store = map<string, string>

  /** `localStorage.getItem(key)`: null when the key is absent. */
  function GetItem(store: Store, key: string): (v: Option<string>)
    ensures v.Some? <==> key in store
    ensures v.Some? ==> v.value == store[key]
  {
    if key in store then Some(store[key]) else None
  }

  /** The key under which the analytics session id is kept. */
  const SessionKey := "analytics_session"

  /** The id to use and the storage after the lookup. */
  datatype SessionLookup = SessionLookup(id: string, store: Store)

  /** Get-or-create: a stored, non-empty id is returned as is and storage is not touched;
      otherwise the id `session_<suffix>` is created and stored. `suffix` stands for the
      timestamp-and-random text the source generates. */
  function GetOrCreateSession(store: Store, suffix: string): (r: SessionLookup)
    ensures |r.id| > 0
    ensures GetItem(r.store, SessionKey) == Some(r.id)
    ensures Truthy(GetItem(store, SessionKey)) ==> r.id == store[SessionKey] && r.store == store
    ensures !Truthy(GetItem(store, SessionKey)) ==> r.id == "session_" + suffix
    ensures forall k :: k != SessionKey ==> GetItem(r.store, k) == GetItem(store, k)
  {
    var saved := GetItem(store, SessionKey);
    if Truthy(saved) then SessionLookup(saved.value, store)
    else
      var id := "session_" + suffix;
      SessionLookup(id, store[SessionKey := id])
  }

  /** Once a session id exists, every later lookup returns it and never overwrites it,
      whatever fresh text would have been generated. */
  lemma SessionIdIsStable(store: Store, first: string, later: string)
    ensures GetOrCreateSession(GetOrCreateSession(store, first).store, later)
         == GetOrCreateSession(store, first)
  {
  }
}

=== FILE: text.dfy ===
/** String searching as `String.prototype.includes` does it, and the file-format choice
    that the recording screens derive from a video's MIME type. */
module Text {

  /** `p` is a prefix of `s`. */
  predicate StartsWith(s: string, p: string) {
    |p| <= |s| && s[..|p|] == p
  }

  /** `s.includes(sub)`, computed by scanning the start positions left to right. */
  predicate Contains(s: string, sub: string)
    decreases |s|
  {
    StartsWith(s, sub) || (|s| > 0 && Contains(s[1..], sub))
  }

  /** `sub` occurs in `s` starting at index `i`. */
  ghost predicate OccursAt(s: string, sub: string, i: int) {
    0 <= i && i + |sub| <= |s| && s[i..i + |sub|] == sub
  }

  /** The scan finds `sub` exactly when it occurs somewhere in `s`. */
  lemma {:induction false} ContainsIffOccurs(s: string, sub: string)
    ensures Contains(s, sub) <==> exists i :: OccursAt(s, sub, i)
    decreases |s|
  {
    if StartsWith(s, sub) {
      assert s[0..|sub|] == s[..|sub|];
      assert OccursAt(s, sub, 0);
    } else if Contains(s, sub) {
      ContainsIffOccurs(s[1..], sub);
      var i :| OccursAt(s[1..], sub, i);
      assert s[i + 1..i + 1 + |sub|] == s[1..][i..i + |sub|];
      assert OccursAt(s, sub, i + 1);
    }
    if exists i :: OccursAt(s, sub, i) {
      var i :| OccursAt(s, sub, i);
      if i > 0 {
        assert s[1..][i - 1..i - 1 + |sub|] == s[i..i + |sub|];
        assert OccursAt(s[1..], sub, i - 1);
        ContainsIffOccurs(s[1..], sub);
      } else {
        assert s[..|sub|] == s[i..i + |sub|];
      }
    }
  }

  /** The container name recorded with analytics events: "mp4" or "webm". */
  function VideoFormat(mime: string): (f: string)
    ensures f == "mp4" <==> exists i :: OccursAt(mime, "mp4", i)
    ensures f == "mp4" || f == "webm"
  {
    ContainsIffOccurs(mime, "mp4");
    if Contains(mime, "mp4") then "mp4" else "webm"
  }

  /** The extension given to a downloaded file: ".mp4" exactly when the MIME type
      mentions mp4, otherwise ".webm". */
  function VideoExtension(mime: string): (ext: string)
    ensures ext == "." + VideoFormat(mime)
    ensures ext == ".mp4" <==> exists i :: OccursAt(mime, "mp4", i)
  {
    if Contains(mime, "mp4") then ".mp4" else ".webm"
  }
}

=== FILE: vercel_api.dfy ===
/** The hosted-analytics client: configuration check, date-range start, two HTTP requests,
    first-match extraction of event counts, and the development fallback to random mock
    numbers. The HTTP answers and the random draws arrive as parameters. */
module VercelApi {
  import opened Outcomes
  import EventStore

  /** Start of the reporting window: some days before now, or a fixed calendar date. */
  datatype Since = DaysAgo(days: nat) | FixedStart(year: int, month: nat, day: nat)

  /** "all" starts on 1 January 2020; every other code uses the same day offset as the
      database query (1, 7 or 30, and 7 by default). */
  function SinceOf(range: string): (s: Since)
    ensures range == "all" ==> s == FixedStart(2020, 1, 1)
    ensures range != "all" ==> s == DaysAgo(EventStore.DaysBack(range))
    ensures range != "all" && range != "1d" && range != "30d" ==> s == DaysAgo(7)
  {
    if range == "all" then FixedStart(2020, 1, 1) else DaysAgo(EventStore.DaysBack(range))
  }

  /** The two environment values the client needs. */
  datatype Config = Config(token: Option<string>, projectId: Option<string>)

  /** Both values are set and non-empty. */
  predicate Configured(c: Config) {
    Truthy(c.token) && Truthy(c.projectId)
  }

  /** An HTTP exchange: a 2xx body, a non-2xx status, or a thrown network/parse error. */
  datatype Response<T> = Ok(body: T) | HttpError(status: int) | NetworkError(error: Thrown)

  datatype PageViewsBody = PageViewsBody(pageviews: Option<int>)
  datatype EventEntry = EventEntry(name: string, count: Option<int>)
  datatype EventsBody = EventsBody(events: Option<seq<EventEntry>>)

  /** The requests sent, in order. */
  datatype Request = PageViewsRequest(since: Since) | EventsRequest(since: Since)

  datatype Failure =
    | ConfigMissing
    | PageViewsApiError(status: int)
    | EventsApiError(status: int)
    | Network(error: Thrown)

  datatype AnalyticsData = AnalyticsData(pageViews: int, recordingStarted: int, recordingCompleted: int,
                                         shareAttempt: int, shareCompleted: int)

  datatype FetchResult = Data(data: AnalyticsData) | Rejected(failure: Failure)

  /** Requests made and the settled result of one fetch. */
  datatype Fetch = Fetch(requests: seq<Request>, result: FetchResult)

  /** A value of `Math.random()`. */
  type Unit = r: real | 0.0 <= r < 1.0

  /** One draw per counter of the mock data. */
  datatype MockDraws = MockDraws(a: Unit, b: Unit, c: Unit, d: Unit, e: Unit)

  /** `Math.floor(r * span) + base`, which lies in `[base, base + span - 1]`. */
  function Scaled(r: Unit, span: nat, base: int): (v: int)
    requires span > 0
    ensures base <= v <= base + span - 1
  {
    assert r * span as real < span as real by { assert (1.0 - r) * span as real > 0.0; }
    (r * span as real).Floor + base
  }

  /** Random development numbers. */
  function GetMockAnalyticsData(draws: MockDraws): (m: AnalyticsData)
    ensures 500 <= m.pageViews <= 1499
    ensures 200 <= m.recordingStarted <= 599
    ensures 100 <= m.recordingCompleted <= 399
    ensures 50 <= m.shareAttempt <= 199
    ensures 20 <= m.shareCompleted <= 119
  {
    AnalyticsData(Scaled(draws.a, 1000, 500), Scaled(draws.b, 400, 200), Scaled(draws.c, 300, 100),
                  Scaled(draws.d, 150, 50), Scaled(draws.e, 100, 20))
  }

  /** `events.find(e => e.name === name)`: the first entry with that name. */
  function FirstMatch(events: seq<EventEntry>, name: string): (r: Option<EventEntry>)
    ensures r.None? <==> forall i :: 0 <= i < |events| ==> events[i].name != name
    ensures r.Some? ==> exists i :: 0 <= i < |events| && events[i] == r.value && events[i].name == name
                                   && forall j :: 0 <= j < i ==> events[j].name != name
    decreases |events|
  {
    if events == [] then None
    else if events[0].name == name then Some(events[0])
    else
      var rest := FirstMatch(events[1..], name);
      assert forall j :: 1 <= j < |events| ==> events[1..][j - 1] == events[j];
      if rest.Some? then
        ghost var k :| 0 <= k < |events[1..]| && events[1..][k] == rest.value && events[1..][k].name == name
                       && forall j :: 0 <= j < k ==> events[1..][j].name != name;
        assert events[k + 1] == rest.value;
        rest
      else rest
  }

  /** `find(...)?.count || 0`: the count of the first entry with that name, and 0 when no
      entry has it or the count is missing. A later entry with the same name is never read. */
  function EventCount(events: seq<EventEntry>, name: string): (n: int)
    ensures (forall i :: 0 <= i < |events| ==> events[i].name != name) ==> n == 0
    ensures forall i :: 0 <= i < |events| && events[i].name == name && (forall j :: 0 <= j < i ==> events[j].name != name)
              ==> n == events[i].count.GetOr(0)
  {
    match FirstMatch(events, name)
    case None => 0
    case Some(e) => e.count.GetOr(0)
  }

  /** The counters read from the two response bodies. */
  function Extract(pv: PageViewsBody, ev: EventsBody): (d: AnalyticsData)
    ensures d.pageViews == pv.pageviews.GetOr(0)
    ensures d.recordingStarted == EventCount(ev.events.GetOr([]), "recording_started")
    ensures d.recordingCompleted == EventCount(ev.events.GetOr([]), "recording_completed")
    ensures d.shareAttempt == EventCount(ev.events.GetOr([]), "share_attempt")
    ensures d.shareCompleted == EventCount(ev.events.GetOr([]), "share_completed")
  {
    var events := ev.events.GetOr([]);
    AnalyticsData(pv.pageviews.GetOr(0),
                  EventCount(events, "recording_started"),
                  EventCount(events, "recording_completed"),
                  EventCount(events, "share_attempt"),
                  EventCount(events, "share_completed"))
  }

  /** The catch block: mock numbers in development, otherwise the error is rethrown. */
  function Recover(failure: Failure, dev: bool, draws: MockDraws): (r: FetchResult)
    ensures dev ==> r == Data(GetMockAnalyticsData(draws))
    ensures !dev ==> r == Rejected(failure)
  {
    if dev then Data(GetMockAnalyticsData(draws)) else Rejected(failure)
  }

  /** Fetch the hosted analytics. Missing configuration throws before any request, even in
      development; a failed request or parse goes through `Recover`; events are requested
      only after the page-view request succeeded. */
  function FetchAnalyticsData(config: Config, range: string, pv: Response<PageViewsBody>, ev: Response<EventsBody>,
                              dev: bool, draws: MockDraws): (r: Fetch)
    ensures !Configured(config) ==> r == Fetch([], Rejected(ConfigMissing))
    ensures Configured(config) ==> |r.requests| >= 1 && r.requests[0] == PageViewsRequest(SinceOf(range))
    ensures Configured(config) && !pv.Ok? ==> |r.requests| == 1
    ensures Configured(config) && pv.Ok? ==>
              r.requests == [PageViewsRequest(SinceOf(range)), EventsRequest(SinceOf(range))]
    ensures Configured(config) && pv.Ok? && ev.Ok? ==> r.result == Data(Extract(pv.body, ev.body))
    ensures Configured(config) && !(pv.Ok? && ev.Ok?) ==>
              (dev ==> r.result == Data(GetMockAnalyticsData(draws))) && (!dev ==> r.result.Rejected?)
    ensures Configured(config) && pv.HttpError? ==> r.result == Recover(PageViewsApiError(pv.status), dev, draws)
    ensures Configured(config) && pv.NetworkError? ==> r.result == Recover(Network(pv.error), dev, draws)
    ensures Configured(config) && pv.Ok? && ev.HttpError? ==>
              r.result == Recover(EventsApiError(ev.status), dev, draws)
    ensures Configured(config) && pv.Ok? && ev.NetworkError? ==> r.result == Recover(Network(ev.error), dev, draws)
  {
    if !Configured(config) then Fetch([], Rejected(ConfigMissing))
    else
      var since := SinceOf(range);
      match pv
      case HttpError(status) => Fetch([PageViewsRequest(since)], Recover(PageViewsApiError(status), dev, draws))
      case NetworkError(e) => Fetch([PageViewsRequest(since)], Recover(Network(e), dev, draws))
      case Ok(pvBody) =>
        var sent := [PageViewsRequest(since), EventsRequest(since)];
        match ev
        case HttpError(status) => Fetch(sent, Recover(EventsApiError(status), dev, draws))
        case NetworkError(e) => Fetch(sent, Recover(Network(e), dev, draws))
        case Ok(evBody) => Fetch(sent, Data(Extract(pvBody, evBody)))
  }
}
